=== FILE: README.md ===
# Factoring a modulus from its totient

This project is a Dafny model of `factorization/known_phi.py`. That file recovers
the prime factors of an RSA modulus `n` when Euler's totient `phi` of `n` is known.
It holds two algorithms:

- **`factorize`** handles a modulus with two primes. It sets `s = n + 1 - phi`,
  which is `p + q` when `n = p*q`. The factors are then the roots of the
  quadratic `x^2 - s*x + n`. It returns `(r, n // r)` for the first integer root
  `r` that divides `n`, and `None` if there is none.
- **`factorize_multi_prime`** handles any number of primes, following Hinek,
  Low and Teske, "On Some Attacks on Multi-prime RSA", Section 3. It keeps a
  FIFO worklist of values still to split and a set of primes found so far. For
  the value `m` at the head of the worklist:
  - It draws a witness `w` and tries `x = w^(phi / 2^i) mod m` for
    `i = 1, 2, ...` while `2^i` divides `phi`.
  - The first `x` with `x > 1` and `x != m - 1` splits `m` into
    `p = gcd(m, x + 1)` and `q = m // p`.
  - Each of `p` and `q` goes to the prime set if it is prime. Otherwise it goes
    to the end of the worklist if it is greater than 1. Otherwise it is dropped.

The Dafny is in three modules:

- `NumberTheory` (`number_theory.dfy`) covers the arithmetic the source gets
  from Python and Sage:
  - divisibility and Euclid's gcd, with Bezout's identity and Euclid's lemma;
  - primality by trial division;
  - powers and the modular power `pow(b, e, m)`;
  - the 2-adic valuation `V2`;
  - the integer square root;
  - products of sequences.
- `TwoPrime` (`two_prime.dfy`) models `factorize`. Sage's root finder becomes
  `IntegerRoots`, which works from the discriminant `s^2 - 4n` and its integer
  square root.
- `MultiPrime` (`multi_prime.dfy`) models `factorize_multi_prime`:
  - one pass of the outer loop is the pure function `Step` over a
    `State(frontier, primes)`;
  - the inner loop is `Search`;
  - the whole algorithm is the method `FactorizeMultiPrime`. Its loop
    invariant is `Accounts`, proved preserved by `StepKeepsAccounts`, and
    its result is proved equal to `Run`, the same outer loop written as a
    recursion over the draws.
  - The random witnesses are a supplied sequence of draws, one per pass of the
    outer loop.

What is proved, in the system's terms:

- **`factorize` is fully characterized.**
  - With the model's ascending root order, it returns `(a, b)` exactly when
    `a != 0`, `a <= b`, `n == a*b` and `phi == (a-1)*(b-1)`.
  - It returns `None` exactly when the quadratic has no integer root.
  - With the model's root order, it divides by zero exactly when `n == 0`
    and `phi <= 1`.
  - In any root order, a nonzero `n` makes the first root listed the answer,
    and a zero `n` raises exactly when that root is 0.
  - So for `n = p*q` and `phi = (p-1)*(q-1)` it returns the two factors:
    `(p, q)` or `(q, p)` in the source, depending on the order in which Sage
    lists the roots. The model returns the smaller first. For example,
    `3233, 3120` gives `(53, 61)` in the model.
  - For two distinct primes, a totient off by one gives `None`.
- **`factorize_multi_prime` always reaches a correct answer when it stops
  normally.** When its worklist empties, the result set is exactly the set of
  primes dividing `n`, whatever `phi` was. This rests on an invariant:
  - the product of the worklist times the primes found, counted with
    multiplicity, is `n`;
  - every collected value is prime;
  - every worklist entry is composite, apart from the initial `n`.
- **The split step is sound.**
  - A candidate `1 < x <= m-2` gives `1 <= p < m`, `1 < q <= m` and `p*q == m`.
  - The inner loop runs at most `V2(phi)` times.
  - Every exponent `phi / 2^i` is exact, and every candidate lies in `[0, m)`.
  - A genuine square root of unity always gives a proper divisor.
  - Line 44 as written does not check `x^2 == 1 (mod m)`. When the gcd is 1,
    the pass puts `m` back at the end of the worklist. That costs a pass, but
    the answer stays correct.

Behaviour of the code a caller may not expect:

- The code puts the initial `n` on the worklist even when it is prime. It does
  not special-case primes.
- For `m < 4`, `randint(2, m - 2)` raises ValueError. The model proves this can
  only happen for the initial `n`: every piece that is split off and put back
  is composite, so it is at least 4.
- With `phi == 0` the inner loop never ends, because every `2^i` divides 0 and
  `pow(w, 0, m) == 1`. The model reports this as `ProbeNeverEnds`.
- `factorize` does not check that the pair it returns is a pair of primes.
  For `n = p*q` with distinct primes, a totient off by one in either direction
  gives `None`. But for primes `p <= q`, three wrong totients also give a pair: `phi == 0` gives
  the trivial pair `(1, n)`, and `phi == (p+1)*(q+1)` and `phi == 2n + 2` give
  the negative pairs `(-q, -p)` and `(-n, -1)`. The model returns these pairs
  as the code does.
- A repeated prime factor appears once in the result set. The set is still
  exactly the set of distinct primes dividing `n`.

Python's `//` and `%` round toward minus infinity, while Dafny's are Euclidean.
Every `//` in the source is an exact division, and every `%` is only compared
with zero. So in the source the two conventions agree.

## Model

| member | source | states |
|---|---|---|
| `NumberTheory.Gcd` | factorization/known_phi.py:48 | `gcd(m, x + 1)` divides both arguments and is positive when either argument is |
| `NumberTheory.GcdGreatest` | factorization/known_phi.py:48 | every common divisor of the two arguments divides their gcd |
| `NumberTheory.ModPow` | factorization/known_phi.py:43 | the three-argument `pow(w, e, m)` lies in `[0, m)` and equals `w^e mod m` |
| `NumberTheory.V2Divides` | factorization/known_phi.py:42 | `2^i` divides `phi > 0` exactly when `i <= V2(phi)`, so the inner loop's condition holds for `i = 1 .. V2(phi)` only |
| `NumberTheory.ISqrt` | factorization/known_phi.py:17-19 | the integer square root `r` satisfies `r^2 <= x < (r+1)^2` |
| `NumberTheory.ISqrtExact` | factorization/known_phi.py:17-19 | a perfect square `t^2` has integer square root `t` |
| `NumberTheory.EuclidPrime` | factorization/known_phi.py:51-57 | a prime that divides a product of two positive numbers divides one of them |
| `NumberTheory.PrimeDivisorsOfProduct` | factorization/known_phi.py:51-57 | the primes that divide a product of primes are exactly the factors of that product |
| `NumberTheory.CompositeAtLeastFour` | factorization/known_phi.py:40 | a value greater than 1 that is not prime is at least 4, so `randint(2, m - 2)` has a non-empty range for it |
| `TwoPrime.IntegerRoots` | factorization/known_phi.py:17-19 | lists exactly the integers `x` with `x^2 - s*x + n == 0`, strictly increasing |
| `TwoPrime.DiscriminantCases` | factorization/known_phi.py:18-19 | `x^2 - s*x + n` has no integer root unless `s^2 - 4n` is a square `t^2` with `s + t` even, and then its roots are exactly `(s - t)/2` and `(s + t)/2` |
| `TwoPrime.RootCofactor` | factorization/known_phi.py:18-22 | every root `r` satisfies `r*(s - r) == n`, and `s - r` is also a root; a nonzero root divides `n`, with quotient `s - r` |
| `TwoPrime.FirstDividing` | factorization/known_phi.py:19-22 | a returned pair comes from the first root that divides `n`, every earlier root being nonzero, and its two members multiply to `n`; a raise means a zero root comes before every root that divides `n`; `None` means no root is zero or divides `n` |
| `TwoPrime.Factorize` | factorization/known_phi.py:8-22 | any returned pair `(p, q)` has `p` dividing `n`, `p*q == n` and `phi == (p-1)*(q-1)` |
| `TwoPrime.FactorizeTakesFirstRoot` | factorization/known_phi.py:19-22 | the divisibility test never rejects a root: the result is decided by the smallest root alone |
| `TwoPrime.FactorizeFound` | factorization/known_phi.py:8-22 | the result is `(a, b)` if and only if `a != 0`, `a <= b`, `n == a*b` and `phi == (a-1)*(b-1)` |
| `TwoPrime.FactorizeNotFound` | factorization/known_phi.py:19-22 | the result is `None` if and only if the quadratic has no integer root |
| `TwoPrime.FirstDividingAnyOrder` | factorization/known_phi.py:19-22 | for `n != 0` and the roots listed in any order, the result is the first root listed with cofactor `s - r` |
| `TwoPrime.FirstDividingZeroModulus` | factorization/known_phi.py:19-22 | for `n == 0` and the roots listed in any order, the loop raises exactly when the first root listed is 0, and otherwise returns that root with cofactor `s - r` |
| `TwoPrime.FactorizeZeroDivision` | factorization/known_phi.py:21 | `n % r` divides by zero if and only if `n == 0` and `phi <= 1` |
| `TwoPrime.RootsOfProduct` | factorization/known_phi.py:16-18 | the quadratic `x^2 - (a+b)x + ab` has exactly the roots `a` and `b` |
| `TwoPrime.TwoPrimeRecovery` | factorization/known_phi.py:9-22 | for `n = p*q` with `p, q` nonzero and `phi = (p-1)*(q-1)`, the result is the two factors, smaller first |
| `TwoPrime.SemiprimeTotients` | factorization/known_phi.py:8-22 | for `n = p*q` with primes `p <= q`, a pair is returned exactly when `phi` is `(p-1)*(q-1)`, `0`, `(p+1)*(q+1)` or `2n + 2` |
| `TwoPrime.OffByOneTotientRejected` | factorization/known_phi.py:8-22 | for two distinct primes, a totient one above or one below the true one gives `None` |
| `TwoPrime.ZeroTotientGivesTrivialPair` | factorization/known_phi.py:16-22 | for `n >= 1`, `phi == 0` makes the roots `1` and `n`, and the result is the trivial pair `(1, n)` |
| `TwoPrime.Recover3233` | factorization/known_phi.py:8-22 | `n = 3233`, `phi = 3120` gives `(53, 61)` |
| `MultiPrime.Witness` | factorization/known_phi.py:40 | the witness lies in `[2, m - 2]`, and every value of that range is the witness of some draw |
| `MultiPrime.Candidate` | factorization/known_phi.py:43 | each candidate `pow(w, phi // 2**i, m)` lies in `[0, m)` |
| `MultiPrime.Splits` | factorization/known_phi.py:44 | a candidate in `[0, m)` passes the test exactly when it is none of `0`, `1` and `m - 1` |
| `MultiPrime.Search` | factorization/known_phi.py:41-64 | a split is found at the first index `i <= V2(phi)` whose candidate passes line 44, with `2^i` dividing `phi`; no split means no candidate for `i = 1 .. V2(phi)` passes |
| `MultiPrime.Split` | factorization/known_phi.py:44-49 | for `1 < x <= m - 2`: `1 <= p < m`, `1 < q <= m`, `p*q == m`, and `p` divides `x + 1` |
| `MultiPrime.SplitBounds` | factorization/known_phi.py:48-49 | `gcd(m, y)` for `2 < y < m` is a proper divisor, and its cofactor lies in `(1, m]` |
| `MultiPrime.Step` | factorization/known_phi.py:36-64 | a pass raises exactly when the head is below 4 or `phi == 0`: with the empty-range ValueError when the head is below 4, and with the endless inner loop otherwise. A draw without a split changes nothing. A split removes the head and appends at most two composite divisors of it at the tail, in FIFO order. The result set only grows, and only by primes |
| `MultiPrime.InitialAccounts` | factorization/known_phi.py:34-35 | the initial state `[n]`, with no primes, satisfies the invariant |
| `MultiPrime.RouteKeepsProduct` | factorization/known_phi.py:51-59 | what one piece adds to the worklist and to the primes multiplies to the piece |
| `MultiPrime.Route` | factorization/known_phi.py:51-59 | a piece is appended to the worklist exactly when it is composite, and added to the result set exactly when it is prime; a value of 1 or less is stored nowhere |
| `MultiPrime.SplitKeepsProduct` | factorization/known_phi.py:46-59 | removing the head and routing its two pieces keeps the product of the worklist times the primes found |
| `MultiPrime.SplitKeepsAccounts` | factorization/known_phi.py:46-59 | a split preserves the whole invariant |
| `MultiPrime.StepKeepsAccounts` | factorization/known_phi.py:36-64 | every pass preserves the invariant, with the primes it collected counted |
| `MultiPrime.AccountsDivide` | factorization/known_phi.py:35-59 | under the invariant, every worklist entry and every collected prime divides the original `n` |
| `MultiPrime.AccountsComplete` | factorization/known_phi.py:36-66 | once the worklist is empty, the result set is exactly the set of primes dividing `n` |
| `MultiPrime.Run` | factorization/known_phi.py:36-66 | the outer loop as a recursion over the draws, one per pass: it stops with the result set once the worklist is empty, with the failure when a pass raises, and inconclusively only when the draws run out; a failure leaves a non-empty worklist, and the result set only grows |
| `MultiPrime.Run15` | factorization/known_phi.py:36-66 | `n = 15`, `phi = 8` with the first draw 0 (witness 2) splits 15 into 5 and 3 in one pass and returns `{3, 5}` |
| `MultiPrime.FactorizeMultiPrime` | factorization/known_phi.py:25-66 | the loop computes exactly `Run(phi, Initial(n), draws)`, so its result is decided by the passes over the draws. A finished run returns exactly the primes dividing `n`. ValueError happens only for an initial `n < 4`, and the endless inner loop only for `phi == 0`, both on the first pass. When the draws run out, every stored value divides `n` and every collected value is prime |
| `MultiPrime.PrimeDivisorsOf2431` | factorization/known_phi.py:25-66 | the primes dividing `2431` are exactly 11, 13 and 17, so a finished run on `2431` returns exactly `{11, 13, 17}` |
| `MultiPrime.SquareRootOfUnitySplits` | factorization/known_phi.py:44-48 | a genuine square root of unity `1 < x < m - 1` modulo `m` gives `1 < gcd(m, x + 1) < m` |
| `MultiPrime.GcdOneRequeues` | factorization/known_phi.py:44-59 | when the accepted candidate has gcd 1 with a composite `m`, the pass moves `m` from the head to the tail and changes nothing else |

## Left out

- Sage's polynomial ring and `.roots()` (known_phi.py lines 4 and 17-19) are a
  foreign library. `IntegerRoots` computes the same set of roots from the
  discriminant. It lists them in increasing order, while Sage's order is not
  specified. The result is always decided by the first root listed, so the
  order of every returned pair follows the model's ascending order. As a
  consequence, `FactorizeFound` has `a <= b`, `TwoPrimeRecovery` returns the
  smaller factor first, and `Recover3233` gives `(53, 61)` where the source
  may give `(61, 53)`. `FirstDividingAnyOrder` and `FirstDividingZeroModulus`
  state what holds for every order: the first root listed decides the
  result, and only a first root of 0 raises.
- FactorizeZeroDivision: its condition `n == 0` and `phi <= 1` holds for the
  ascending order only. For `n == 0` the roots are 0 and `1 - phi`, and the
  code raises exactly when Sage lists 0 first. So for `n == 0` and
  `phi != 1`, whether the source raises or returns `(1 - phi, 0)` depends on
  Sage's root order. With the larger root first it raises exactly when
  `phi >= 1`.
- Sage's `is_prime` is a foreign routine (provable by default). `IsPrime` is
  exact trial division. Like Sage, it answers false for every integer below 2.
- `random.randint` is entropy. Each pass takes one element of a supplied
  sequence of draws and maps it into `[2, m - 2]`.
- Termination of the outer `while` holds only with probability 1 under random
  witnesses. The number of draws bounds the number of passes. A run that
  exhausts them reports `Inconclusive` with its state. The bound of at least
  1/2 success per witness is not modelled.
- FactorizeMultiPrime: takes `phi` as a natural number. For a negative even
  `phi`, Python's `pow` with a negative exponent computes modular inverses.
  That is not modelled.
- The exceptions of the source become outcome values: `ZeroDivision`,
  `EmptyWitnessRange` and `ProbeNeverEnds`. A `Failed` outcome also carries the
  state at the time, which Python discards.
- The conversion of the result set to a tuple (line 66) has no specified order.
  The model returns the set.
- `ModPow` multiplies one factor at a time. The efficiency of the big-integer
  `pow` is not modelled.

=== FILE: multi_prime.dfy ===
/** Recovery of every prime factor of `n` from its totient `phi`
    (`factorize_multi_prime` in factorization/known_phi.py, after Hinek, Low
    and Teske, "On Some Attacks on Multi-prime RSA", Section 3).

    A FIFO worklist holds the values still to be split and a set collects the
    primes found. For the value `m` at the head, a witness `w` is drawn and the
    candidates `w^(phi / 2^i) mod m` are tried for `i = 1, 2, ...` while `2^i`
    divides `phi`; the first candidate `x` with `x > 1` and `x != m - 1` splits
    `m` into `gcd(m, x + 1)` and `m // gcd(m, x + 1)`.

    The random witness of the source is replaced by a supplied sequence of
    draws, one per pass of the outer loop; the number of draws bounds the
    number of passes. */
module MultiPrime {
  import opened NumberTheory

  /** `factors` (the worklist, head first) and `prime_factors`. */
  datatype State = State(frontier: seq<int>, primes: set<int>)

  /** The ways the source stops without returning. */
  datatype Failure =
    | EmptyWitnessRange(m: int)  // `randint(2, m - 2)` raises ValueError when m < 4
    | ProbeNeverEnds             // phi == 0: every 2^i divides it and pow(w, 0, m) == 1

  datatype StepResult = Next(st: State) | Raise(failure: Failure)

  datatype Outcome =
    | Factored(primes: set<int>)
    | Failed(failure: Failure, st: State)
    | Inconclusive(st: State)  // the draws ran out with values left to split

  /** The state before the outer loop: the worklist `[n]`, no primes. */
  function Initial(n: int): (st: State) {
    State([n], {})
  }

  /** The witness `randint(2, m - 2)` taken from a supplied draw. Every
      value of the range is the witness of some draw. */
  function Witness(m: int, draw: int): (w: int)
    requires m >= 4
    ensures 2 <= w <= m - 2
    ensures 0 <= draw <= m - 4 ==> w == draw + 2
  {
    2 + draw % (m - 3)
  }

  /** `sqrt_1` at exponent index `i`: `pow(w, phi // 2**i, m)`. */
  function Candidate(phi: nat, m: int, w: int, i: nat): (x: int)
    requires m >= 4
    ensures 0 <= x < m
  {
    ModPow(w, phi / Pow(2, i), m)
  }

  /** The test at known_phi.py:44. It does not check that `x * x` is 1
      modulo `m`. */
  predicate Splits(x: int, m: int): (b: bool)
    ensures 0 <= x < m ==> (b <==> x != 0 && x != 1 && x != m - 1)
  {
    x > 1 && x != m - 1
  }

  /** What the inner loop found: the first index whose candidate splits,
      or nothing. */
  datatype Probe = SplitAt(i: nat, x: int) | NoSplit

  /** The inner loop of known_phi.py:41-64, from index `i` on. It stops at
      the first splitting candidate, and otherwise runs while `2^i` divides
      `phi`, which is at most `V2(phi)` times. */
  function Search(phi: nat, m: int, w: int, i: nat): (r: Probe)
    requires phi > 0 && m >= 4 && 1 <= i <= V2(phi) + 1
    ensures r.SplitAt? ==> i <= r.i <= V2(phi) && Divides(Pow(2, r.i), phi)
    ensures r.SplitAt? ==> r.x == Candidate(phi, m, w, r.i) && 1 < r.x <= m - 2
    ensures r.SplitAt? ==> forall j :: i <= j < r.i ==> !Splits(Candidate(phi, m, w, j), m)
    ensures r.NoSplit? ==> forall j :: i <= j <= V2(phi) ==> !Splits(Candidate(phi, m, w, j), m)
    decreases V2(phi) + 1 - i
  {
    V2Divides(phi, i);
    if phi % Pow(2, i) != 0 then NoSplit
    else
      var x := Candidate(phi, m, w, i);
      if Splits(x, m) then SplitAt(i, x) else Search(phi, m, w, i + 1)
  }

  /** Lines 48-49: `p = gcd(m, x + 1)` and `q = m // p`. For a candidate
      strictly between 1 and `m - 1`, `p` is a proper divisor and `q` exceeds
      one, and the two multiply back to `m`. */
  function Split(m: int, x: int): (pq: (int, int))
    requires 1 < x <= m - 2
    ensures 1 <= pq.0 < m && 1 < pq.1 <= m
    ensures pq.0 * pq.1 == m
    ensures Divides(pq.0, x + 1)
  {
    var p := Gcd(m, x + 1);
    SplitBounds(m, x + 1, p);
    (p, m / p)
  }

  lemma SplitBounds(m: int, y: int, p: int)
    requires 2 < y < m && p == Gcd(m, y)
    ensures 1 <= p < m && 1 < m / p <= m && p * (m / p) == m
  {
    DividesBound(p, y);
    var q := DividesWitness(p, m);
    DividesIntro(p, m, q);
    assert m / p == q;
    MulSign(p, q);
    assert q != 1;
    MulAtLeast(q, p);
    assert p * q == q * p;
  }

  /** Lines 51-59 for one piece `v`: a prime joins the result set, a larger
      value joins the end of the worklist, and anything else is dropped. */
  function Route(st: State, v: int): (r: State)
    ensures r.frontier == st.frontier + (if Composite(v) then [v] else [])
    ensures r.primes == st.primes + (if IsPrime(v) then {v} else {})
  {
    if IsPrime(v) then State(st.frontier, st.primes + {v})
    else if v > 1 then State(st.frontier + [v], st.primes)
    else
      assert st.frontier + [] == st.frontier;
      st
  }

  /** The inner loop for the head `m` and the draw of this pass. */
  function ProbeFor(phi: nat, m: int, draw: int): (r: Probe)
    requires phi > 0 && m >= 4
  {
    Search(phi, m, Witness(m, draw), 1)
  }

  /** One pass of the outer loop (known_phi.py:36-64) on a non-empty
      worklist. A draw that finds no split leaves the state as it was; a
      split removes the head and appends at most two composite divisors of
      it at the tail, keeping the order of the rest; the result set only
      grows, and only by primes. */
  function Step(phi: nat, st: State, draw: int): (r: StepResult)
    requires |st.frontier| > 0
    ensures r.Raise? <==> st.frontier[0] < 4 || phi == 0
    ensures r.Raise? ==>
      r.failure == (if st.frontier[0] < 4 then EmptyWitnessRange(st.frontier[0]) else ProbeNeverEnds)
    ensures r.Next? && ProbeFor(phi, st.frontier[0], draw).NoSplit? ==> r.st == st
    ensures r.Next? && ProbeFor(phi, st.frontier[0], draw).SplitAt? ==>
      && st.frontier[1..] <= r.st.frontier
      && |r.st.frontier| <= |st.frontier| + 1
      && (forall j :: |st.frontier| - 1 <= j < |r.st.frontier| ==>
            Composite(r.st.frontier[j]) && Divides(r.st.frontier[j], st.frontier[0]))
    ensures r.Next? ==> st.primes <= r.st.primes
    ensures r.Next? ==> forall v :: v in r.st.primes - st.primes ==> IsPrime(v)
  {
    var m := st.frontier[0];
    if m < 4 then Raise(EmptyWitnessRange(m))
    else if phi == 0 then Raise(ProbeNeverEnds)
    else
      match ProbeFor(phi, m, draw)
      case NoSplit => Next(st)
      case SplitAt(_, x) =>
        var pq := Split(m, x);
        SplitPiecesDivide(m, pq.0, pq.1);
        Next(Route(Route(State(st.frontier[1..], st.primes), pq.0), pq.1))
  }

  lemma SplitPiecesDivide(m: int, p: int, q: int)
    requires p * q == m
    ensures Divides(p, m) && Divides(q, m)
  {
    DividesIntro(p, m, q);
    DividesIntro(q, m, p);
  }

  // ---------------------------------------------------------------------
  // The product invariant

  /** The primes a piece contributes to the result set, as a sequence. */
  function Collected(v: int): (c: seq<int>) {
    if IsPrime(v) then [v] else []
  }

  /** The primes one pass adds, counted with multiplicity. */
  ghost function Gathered(phi: nat, st: State, draw: int): seq<int>
    requires |st.frontier| > 0
  {
    var m := st.frontier[0];
    if m < 4 || phi == 0 then []
    else
      match ProbeFor(phi, m, draw)
      case NoSplit => []
      case SplitAt(_, x) =>
        var pq := Split(m, x);
        Collected(pq.0) + Collected(pq.1)
  }

  /** What the loop state means, given the sequence `found` of every prime
      collected so far with multiplicity: the worklist times the primes
      found multiply to `n`; the result set holds exactly the values of
      `found`, all prime; and the worklist is still `[n]` or holds only
      composites. */
  ghost predicate Accounts(n: int, st: State, found: seq<int>) {
    && Product(st.frontier) * Product(found) == n
    && (forall j :: 0 <= j < |found| ==> IsPrime(found[j]))
    && (forall v :: v in st.primes <==> v in found)
    && (st == Initial(n) || forall j :: 0 <= j < |st.frontier| ==> Composite(st.frontier[j]))
  }

  lemma InitialAccounts(n: int)
    ensures Accounts(n, Initial(n), [])
  {
    assert Product([n]) == n * Product([]);
  }

  /** Routing a piece `v >= 1` keeps the product: what reaches the worklist
      and what reaches the result set multiply to `v`. */
  lemma RouteKeepsProduct(st: State, v: int, found: seq<int>)
    requires v >= 1
    ensures Product(Route(st, v).frontier) * Product(found + Collected(v))
            == Product(st.frontier) * Product(found) * v
  {
    var f, g := Product(st.frontier), Product(found);
    var x := Product(Route(st, v).frontier);
    var y := Product(found + Collected(v));
    assert Product([v]) == v;
    if IsPrime(v) {
      ProductAppend(found, [v]);
      assert x == f && y == g * v;
    } else if v > 1 {
      ProductAppend(st.frontier, [v]);
      assert found + [] == found;
      assert x == f * v && y == g;
    } else {
      assert found + [] == found;
      assert x == f && y == g && v == 1;
    }
    ScaleOneSide(f, g, x, y, v);
  }

  lemma ScaleOneSide(f: int, g: int, x: int, y: int, v: int)
    requires (x == f && y == g * v) || (x == f * v && y == g) || (x == f && y == g && v == 1)
    ensures x * y == f * g * v
  {
  }

  lemma SplitKeepsProduct(st: State, found: seq<int>, p: int, q: int)
    requires |st.frontier| > 0
    requires p >= 1 && q > 1 && p * q == st.frontier[0]
    ensures Product(Route(Route(State(st.frontier[1..], st.primes), p), q).frontier)
              * Product(found + Collected(p) + Collected(q))
            == Product(st.frontier) * Product(found)
  {
    var tail := State(st.frontier[1..], st.primes);
    var mid := Route(tail, p);
    RouteKeepsProduct(tail, p, found);
    RouteKeepsProduct(mid, q, found + Collected(p));
    var t, f := Product(tail.frontier), Product(found);
    var a := Product(mid.frontier) * Product(found + Collected(p));
    assert a == t * f * p;
    var last := Route(mid, q);
    var b := Product(last.frontier) * Product(found + Collected(p) + Collected(q));
    assert b == a * q;
    MulRegroup(t, f, p, q);
    assert Product(st.frontier) == st.frontier[0] * t;
  }

  lemma MulRegroup(t: int, f: int, p: int, q: int)
    ensures (t * f * p) * q == ((p * q) * t) * f
  {
  }

  /** Removing the head `m` and routing two pieces whose product is `m`
      preserves `Accounts`. */
  lemma SplitKeepsAccounts(n: int, st: State, found: seq<int>, p: int, q: int)
    requires |st.frontier| > 0 && Accounts(n, st, found)
    requires p >= 1 && q > 1 && p * q == st.frontier[0]
    ensures Accounts(n, Route(Route(State(st.frontier[1..], st.primes), p), q),
                     found + Collected(p) + Collected(q))
  {
    var tail := State(st.frontier[1..], st.primes);
    var mid := Route(tail, p);
    var last := Route(mid, q);
    var g := found + Collected(p) + Collected(q);
    SplitKeepsProduct(st, found, p, q);
    forall j | 0 <= j < |g|
      ensures IsPrime(g[j])
    {
      if j >= |found| {
        assert g[j] in Collected(p) + Collected(q);
      }
    }
    assert forall j :: 0 <= j < |tail.frontier| ==> tail.frontier[j] == st.frontier[j + 1];
  }

  /** Every pass preserves `Accounts`, once the primes it collected are
      appended to `found`. */
  lemma StepKeepsAccounts(n: int, phi: nat, st: State, draw: int, found: seq<int>)
    requires |st.frontier| > 0 && Accounts(n, st, found)
    requires Step(phi, st, draw).Next?
    ensures Accounts(n, Step(phi, st, draw).st, found + Gathered(phi, st, draw))
  {
    var m := st.frontier[0];
    match ProbeFor(phi, m, draw)
    case NoSplit =>
      assert found + [] == found;
    case SplitAt(_, x) =>
      var pq := Split(m, x);
      SplitKeepsAccounts(n, st, found, pq.0, pq.1);
      assert found + Gathered(phi, st, draw) == found + Collected(pq.0) + Collected(pq.1);
  }

  /** Under `Accounts`, every worklist entry and every collected prime
      divides `n`. */
  lemma AccountsDivide(n: int, st: State, found: seq<int>)
    requires Accounts(n, st, found)
    ensures forall j :: 0 <= j < |st.frontier| ==> Divides(st.frontier[j], n)
    ensures forall v :: v in st.primes ==> IsPrime(v) && Divides(v, n)
  {
    forall j | 0 <= j < |st.frontier|
      ensures Divides(st.frontier[j], n)
    {
      MemberDividesProduct(st.frontier, j);
      DividesMul(st.frontier[j], Product(st.frontier), Product(found));
    }
    forall v | v in st.primes
      ensures IsPrime(v) && Divides(v, n)
    {
      var j :| 0 <= j < |found| && found[j] == v;
      MemberDividesProduct(found, j);
      DividesMul(v, Product(found), Product(st.frontier));
      assert Product(found) * Product(st.frontier) == n;
    }
  }

  /** With the worklist empty, the result set is exactly the set of primes
      dividing `n`. */
  lemma AccountsComplete(n: int, st: State, found: seq<int>)
    requires Accounts(n, st, found) && |st.frontier| == 0
    ensures forall x :: x in st.primes <==> IsPrime(x) && Divides(x, n)
  {
    assert Product(found) == n;
    forall x
      ensures x in st.primes <==> IsPrime(x) && Divides(x, n)
    {
      if x in st.primes {
        var j :| 0 <= j < |found| && found[j] == x;
        PrimeDivisorsOfProduct(found, x);
      }
      if IsPrime(x) && Divides(x, n) {
        PrimeDivisorsOfProduct(found, x);
      }
    }
  }

  // ---------------------------------------------------------------------
  // The whole algorithm

  /** The outer loop (known_phi.py:36-66) as a recursion over the draws,
      one per pass: it stops with the result set when the worklist is empty,
      with the raised failure when a pass raises, and inconclusively when the
      draws run out first. */
  function Run(phi: nat, st: State, draws: seq<int>): (r: Outcome)
    ensures r.Inconclusive? ==> |r.st.frontier| > 0
    ensures r.Failed? ==> |draws| > 0 && |r.st.frontier| > 0
    ensures r.Factored? ==> st.primes <= r.primes
    ensures r.Factored? && |draws| == 0 ==> |st.frontier| == 0
    decreases |draws|
  {
    if |st.frontier| == 0 then Factored(st.primes)
    else if |draws| == 0 then Inconclusive(st)
    else
      match Step(phi, st, draws[0])
      case Raise(f) => Failed(f, st)
      case Next(next) => Run(phi, next, draws[1..])
  }

  /** `factorize_multi_prime(n, phi)` with one draw per pass of the outer
      loop; its result is `Run` over the draws. When the worklist empties, the result is exactly the set of
      primes dividing `n`, whatever `phi` was. The ValueError of `randint`
      can only come from an initial `n` below 4, and the endless inner loop
      only from `phi == 0`, both on the first pass. When the draws run out
      first, every value in the state divides `n` and every collected value
      is prime. */
  method FactorizeMultiPrime(n: int, phi: nat, draws: seq<int>) returns (r: Outcome)
    ensures r == Run(phi, Initial(n), draws)
    ensures r.Factored? ==> forall x :: x in r.primes <==> IsPrime(x) && Divides(x, n)
    ensures r.Failed? ==> r.st == Initial(n) && |draws| > 0
    ensures r.Failed? ==> (r.failure == ProbeNeverEnds <==> n >= 4 && phi == 0)
    ensures r.Failed? ==> r.failure == (if n < 4 then EmptyWitnessRange(n) else ProbeNeverEnds)
    ensures |draws| > 0 && (n < 4 || phi == 0) ==> r.Failed?
    ensures r.Inconclusive? ==> |r.st.frontier| > 0
    ensures r.Inconclusive? ==> forall j :: 0 <= j < |r.st.frontier| ==> Divides(r.st.frontier[j], n)
    ensures r.Inconclusive? ==> forall v :: v in r.st.primes ==> IsPrime(v) && Divides(v, n)
  {
    var st := Initial(n);
    ghost var found: seq<int> := [];
    InitialAccounts(n);
    var k := 0;
    while k < |draws| && |st.frontier| > 0
      invariant 0 <= k <= |draws|
      invariant Accounts(n, st, found)
      invariant k == 0 ==> st == Initial(n)
      invariant k > 0 ==> n >= 4 && phi > 0
      invariant Run(phi, Initial(n), draws) == Run(phi, st, draws[k..])
    {
      assert draws[k..][1..] == draws[k + 1..];
      var step := Step(phi, st, draws[k]);
      if step.Raise? {
        if st != Initial(n) {
          CompositeAtLeastFour(st.frontier[0]);
        }
        return Failed(step.failure, st);
      }
      StepKeepsAccounts(n, phi, st, draws[k], found);
      found := found + Gathered(phi, st, draws[k]);
      st := step.st;
      k := k + 1;
    }
    if |st.frontier| == 0 {
      AccountsComplete(n, st, found);
      return Factored(st.primes);
    }
    AccountsDivide(n, st, found);
    return Inconclusive(st);
  }

  // ---------------------------------------------------------------------
  // Why the split works

  /** Why the gcd splits `m`: a genuine square root of unity `x`
      modulo `m` with `1 < x < m - 1` gives a proper divisor `gcd(m, x + 1)`
      of `m`. */
  lemma SquareRootOfUnitySplits(m: int, x: int)
    requires 1 < x < m - 1
    requires (x * x) % m == 1
    ensures 1 < Gcd(m, x + 1) < m
  {
    var g := Gcd(m, x + 1);
    DividesBound(g, x + 1);
    assert x * x == m * ((x * x) / m) + 1;
    assert (x + 1) * (x - 1) == m * ((x * x) / m);
    DividesIntro(m, (x + 1) * (x - 1), (x * x) / m);
    if g == 1 {
      CoprimeDivides(m, x + 1, x - 1);
      DividesBound(m, x - 1);
      assert false;
    }
  }

  /** As written, line 44 also accepts a candidate that is no square root
      of unity. If its gcd with `m` is 1, the pass drops the piece 1 and
      puts the composite `m` back at the end of the worklist. */
  lemma GcdOneRequeues(phi: nat, st: State, draw: int)
    requires |st.frontier| > 0 && Composite(st.frontier[0]) && phi > 0
    requires ProbeFor(phi, st.frontier[0], draw).SplitAt?
    requires Gcd(st.frontier[0], ProbeFor(phi, st.frontier[0], draw).x + 1) == 1
    ensures Step(phi, st, draw) == Next(State(st.frontier[1..] + [st.frontier[0]], st.primes))
  {
    CompositeAtLeastFour(st.frontier[0]);
    var m := st.frontier[0];
    var x := ProbeFor(phi, m, draw).x;
    assert Split(m, x) == (1, m / 1);
  }

  // ---------------------------------------------------------------------
  // A worked modulus

  lemma ThreePrimes()
    ensures IsPrime(11) && IsPrime(13) && IsPrime(17)
  {
  }

  /** The prime divisors of `2431 = 11 * 13 * 17`; with the postcondition of
      `FactorizeMultiPrime`, a `Factored` outcome for this modulus is exactly
      `{11, 13, 17}`. */
  lemma PrimeDivisorsOf2431(x: int)
    ensures IsPrime(x) && Divides(x, 2431) <==> x == 11 || x == 13 || x == 17
  {
    ThreePrimes();
    var s := [11, 13, 17];
    assert Product(s) == 2431;
    if IsPrime(x) {
      PrimeDivisorsOfProduct(s, x);
    } else if x == 11 || x == 13 || x == 17 {
      assert false;
    }
  }

  /** `n = 15`, `phi = 8` and the first draw 0: the witness is 2, and
      `2^4 mod 15 == 1` does not split but `2^2 mod 15 == 4` does, giving
      `gcd(15, 5) == 5` and `3`; one pass factors 15. */
  lemma Run15()
    ensures Run(8, Initial(15), [0]) == Factored({3, 5})
  {
    Step15();
    assert [0][1..] == [];
  }

  lemma Step15()
    ensures Step(8, Initial(15), 0) == Next(State([], {3, 5}))
  {
    Probe15();
    Split15();
    Route15();
  }

  lemma Probe15()
    ensures ProbeFor(8, 15, 0) == SplitAt(2, 4)
  {
    assert V2(8) == 3 by {
      assert V2(1) == 0;
      assert V2(2) == 1;
      assert V2(4) == 2;
    }
    assert Witness(15, 0) == 2;
    Candidates15();
    assert Search(8, 15, 2, 2) == SplitAt(2, 4);
    assert Search(8, 15, 2, 1) == Search(8, 15, 2, 2);
  }

  lemma Candidates15()
    ensures Candidate(8, 15, 2, 1) == 1 && Candidate(8, 15, 2, 2) == 4
  {
    assert Pow(2, 1) == 2;
    assert Pow(2, 2) == 4;
    assert Pow(2, 3) == 8;
    assert Pow(2, 4) == 16;
    assert ModPow(2, 4, 15) == 1;
    assert ModPow(2, 2, 15) == 4;
  }

  lemma Split15()
    ensures Split(15, 4) == (5, 3)
  {
    assert Gcd(15, 5) == 5 by {
      assert Gcd(5, 0) == 5;
    }
  }

  lemma Route15()
    ensures Route(Route(State([], {}), 5), 3) == State([], {3, 5})
  {
    SmallPrimes();
    assert IsPrime(5) by {
      forall d | 2 <= d < 5
        ensures !Divides(d, 5)
      {
        assert d in {2, 3, 4};
      }
    }
  }
}

=== FILE: number_theory.dfy ===
/** Integer arithmetic shared by both recovery algorithms: divisibility,
    Euclid's gcd, trial-division primality, powers and modular powers, the
    2-adic valuation, the integer square root and products of sequences.

    Every quantity is an unbounded `int`, as Python's integers are. Dafny's
    `/` and `%` are Euclidean while Python's are floored; the two agree for a
    positive divisor, and wherever the factorization code divides by a value
    of either sign it does so only after checking that the division is exact. */
module NumberTheory {

  function Abs(x: int): (a: nat)
    ensures a == x || a == -x
  {
    if x < 0 then -x else x
  }

  /** `d` divides `x`; zero divides only zero. */
  predicate Divides(d: int, x: int) {
    if d == 0 then x == 0 else x % d == 0
  }

  /** A composite number: greater than one and not prime. */
  predicate Composite(x: int) {
    x > 1 && !IsPrime(x)
  }

  /** Primality by trial division: at least two, and no divisor strictly
      between one and itself. This stands for Sage's `is_prime`, which
      answers False for every integer below two. */
  predicate IsPrime(x: int) {
    x >= 2 && forall d :: 2 <= d < x ==> !Divides(d, x)
  }

  // ---------------------------------------------------------------------
  // Quotients, remainders and divisibility

  lemma MulNatAtLeast(a: nat, b: nat)
    requires b >= 1
    ensures a * b >= a
  {
    assert a * b == a + a * (b - 1);
  }

  lemma MulAbs(d: int, k: int)
    ensures Abs(d * k) == Abs(d) * Abs(k)
  {
    if d < 0 && k < 0 {
      assert d * k == (-d) * (-k);
    } else if d < 0 {
      assert d * k == -((-d) * k);
    } else if k < 0 {
      assert d * k == -(d * (-k));
    }
  }

  lemma MulAtLeast(d: int, k: int)
    requires d != 0 && k != 0
    ensures Abs(d * k) >= Abs(d)
  {
    MulAbs(d, k);
    MulNatAtLeast(Abs(d), Abs(k));
  }

  /** The quotient and remainder of Euclidean division are unique. */
  lemma DivModUnique(x: int, d: int, q: int, r: int)
    requires d != 0
    requires x == d * q + r
    requires 0 <= r < Abs(d)
    ensures x / d == q && x % d == r
  {
    var q0, r0 := x / d, x % d;
    assert x == d * q0 + r0;
    assert d * (q - q0) == r0 - r by {
      assert d * q - d * q0 == d * (q - q0);
    }
    if q != q0 {
      MulAtLeast(d, q - q0);
      assert false;
    }
  }

  lemma DividesIntro(d: int, x: int, c: int)
    requires x == d * c
    ensures Divides(d, x)
    ensures d != 0 ==> x / d == c
  {
    if d != 0 {
      DivModUnique(x, d, c, 0);
    }
  }

  lemma DividesWitness(d: int, x: int) returns (c: int)
    requires Divides(d, x)
    ensures x == d * c
  {
    if d == 0 {
      c := 0;
    } else {
      c := x / d;
      assert x == d * (x / d) + x % d;
    }
  }

  lemma DividesMul(d: int, a: int, k: int)
    requires Divides(d, a)
    ensures Divides(d, a * k)
  {
    var c := DividesWitness(d, a);
    assert a * k == d * (c * k);
    DividesIntro(d, a * k, c * k);
  }

  lemma DividesLinear(d: int, a: int, b: int, k: int)
    requires Divides(d, a) && Divides(d, b)
    ensures Divides(d, a + k * b)
  {
    var ca := DividesWitness(d, a);
    var cb := DividesWitness(d, b);
    assert a + k * b == d * (ca + k * cb);
    DividesIntro(d, a + k * b, ca + k * cb);
  }

  lemma MulSign(d: int, c: int)
    ensures d > 0 && c <= 0 ==> d * c <= 0
  {
    if d > 0 && c <= 0 {
      assert d * c == -(d * -c);
    }
  }

  /** A positive divisor of a positive number is no larger than it. */
  lemma DividesBound(d: int, x: int)
    requires d > 0 && x > 0 && Divides(d, x)
    ensures d <= x
  {
    var c := DividesWitness(d, x);
    MulSign(d, c);
    MulAtLeast(d, c);
  }

  // ---------------------------------------------------------------------
  // Euclid's algorithm

  /** `math.gcd` on non-negative arguments, by Euclid's algorithm. */
  function Gcd(a: nat, b: nat): (g: nat)
    ensures Divides(g, a) && Divides(g, b)
    ensures a > 0 || b > 0 ==> g > 0
    decreases b
  {
    if b == 0 then
      DividesIntro(a, a, 1);
      DividesIntro(a, 0, 0);
      a
    else
      var g := Gcd(b, a % b);
      DividesFromRemainder(g, a, b);
      g
  }

  /** A common divisor of `b` and `a % b` divides `a`. */
  lemma DividesFromRemainder(g: int, a: int, b: int)
    requires b != 0 && Divides(g, b) && Divides(g, a % b)
    ensures Divides(g, a)
  {
    var k := a / b;
    assert a == b * k + a % b;
    DividesLinear(g, a % b, b, k);
    assert a % b + k * b == a;
  }

  /** Bezout's identity: the gcd is an integer combination of the arguments. */
  lemma {:induction false} Bezout(a: nat, b: nat) returns (u: int, v: int)
    ensures u * a + v * b == Gcd(a, b)
    decreases b
  {
    if b == 0 {
      u, v := 1, 0;
    } else {
      var u', v' := Bezout(b, a % b);
      assert a % b == a - b * (a / b);
      assert u' * b + v' * (a - b * (a / b)) == Gcd(a, b);
      assert u' * b + v' * (a - b * (a / b)) == v' * a + (u' - v' * (a / b)) * b;
      u, v := v', u' - v' * (a / b);
    }
  }

  /** Every common divisor divides the gcd. */
  lemma GcdGreatest(a: nat, b: nat, d: int)
    requires Divides(d, a) && Divides(d, b)
    ensures Divides(d, Gcd(a, b))
  {
    var u, v := Bezout(a, b);
    DividesMul(d, a, u);
    assert u * a == a * u;
    DividesLinear(d, a * u, b, v);
    assert a * u + v * b == Gcd(a, b);
  }

  /** If `d` divides `a * b` and shares no factor with `a`, it divides `b`. */
  lemma CoprimeDivides(d: nat, a: nat, b: int)
    requires Gcd(d, a) == 1
    requires Divides(d, a * b)
    ensures Divides(d, b)
  {
    var u, v := Bezout(d, a);
    var c := DividesWitness(d, a * b);
    assert b == (u * d + v * a) * b;
    assert (u * d + v * a) * b == d * (u * b + v * c) by {
      assert (u * d + v * a) * b == d * (u * b) + v * (a * b);
    }
    DividesIntro(d, b, u * b + v * c);
  }

  /** Euclid's lemma: a prime dividing a product of two positive numbers
      divides one of them. */
  lemma EuclidPrime(r: int, a: nat, b: nat)
    requires IsPrime(r)
    requires Divides(r, a * b)
    ensures Divides(r, a) || Divides(r, b)
  {
    if a == 0 {
      DividesIntro(r, 0, 0);
    } else {
      var g := Gcd(r, a);
      assert g > 0;
      DividesBound(g, r);
      if g == 1 {
        CoprimeDivides(r, a, b);
      }
    }
  }

  /** A prime dividing a prime is that prime. */
  lemma PrimeDividesPrime(r: int, p: int)
    requires IsPrime(r) && IsPrime(p) && Divides(r, p)
    ensures r == p
  {
    DividesBound(r, p);
  }

  /** A positive factor of a prime is 1 or the prime itself. */
  lemma FactorOfPrime(q: int, k: int, b: int)
    requires IsPrime(q) && k > 0 && b > 0 && k * b == q
    ensures k == 1 || k == q
  {
    DividesIntro(k, q, b);
    DividesBound(k, q);
  }

  lemma CancelLeft(p: int, x: int, y: int)
    requires p != 0 && p * x == p * y
    ensures x == y
  {
  }

  lemma CancelRight(x: int, y: int, p: int)
    requires p != 0 && x * p == y * p
    ensures x == y
  {
    CancelLeft(p, x, y);
  }

  lemma SmallPrimes()
    ensures IsPrime(2) && IsPrime(3)
  {
    forall d | 2 <= d < 3
      ensures !Divides(d, 3)
    {
      assert d == 2;
    }
  }

  /** Neither 2 nor 3 is composite, so a composite number is at least 4. */
  lemma CompositeAtLeastFour(x: int)
    requires Composite(x)
    ensures x >= 4
  {
    SmallPrimes();
  }

  // ---------------------------------------------------------------------
  // Powers

  /** `b ** e` for a non-negative exponent. */
  function Pow(b: int, e: nat): (r: int)
    ensures b > 0 ==> r > 0
  {
    if e == 0 then 1 else b * Pow(b, e - 1)
  }

  lemma ModAddMultiple(x: int, m: int, k: int)
    requires m > 0
    ensures (x + m * k) % m == x % m
  {
    assert x == m * (x / m) + x % m;
    assert x + m * k == m * (x / m + k) + x % m;
    DivModUnique(x + m * k, m, x / m + k, x % m);
  }

  lemma MulModRight(b: int, a: int, m: int)
    requires m > 0
    ensures (b * (a % m)) % m == (b * a) % m
  {
    assert a == m * (a / m) + a % m;
    assert b * a == b * (a % m) + m * (b * (a / m));
    ModAddMultiple(b * (a % m), m, b * (a / m));
  }

  /** Python's three-argument `pow(b, e, m)` for `e >= 0` and `m > 0`,
      reducing after every multiplication. */
  function ModPow(b: int, e: nat, m: int): (r: int)
    requires m > 0
    ensures 0 <= r < m
    ensures r == Pow(b, e) % m
  {
    if e == 0 then 1 % m
    else
      var r := ModPow(b, e - 1, m);
      MulModRight(b, Pow(b, e - 1), m);
      (b * r) % m
  }

  // ---------------------------------------------------------------------
  // The 2-adic valuation

  /** The exponent of the largest power of two dividing `x`. */
  function V2(x: nat): (k: nat)
    requires x > 0
  {
    if x % 2 == 1 then 0 else 1 + V2(x / 2)
  }

  lemma DoubleDivides(k: int, y: int)
    requires k > 0
    ensures Divides(2 * k, 2 * y) <==> Divides(k, y)
  {
    if Divides(k, y) {
      var c := DividesWitness(k, y);
      assert 2 * y == (2 * k) * c;
      DividesIntro(2 * k, 2 * y, c);
    }
    if Divides(2 * k, 2 * y) {
      var c := DividesWitness(2 * k, 2 * y);
      assert y == k * c;
      DividesIntro(k, y, c);
    }
  }

  /** `2 ** i` divides a positive `x` exactly when `i` is at most the
      2-adic valuation of `x`. */
  lemma {:induction false} V2Divides(x: nat, i: nat)
    requires x > 0
    ensures Divides(Pow(2, i), x) <==> i <= V2(x)
    decreases i
  {
    if i == 0 {
      DividesIntro(1, x, x);
    } else {
      var k := Pow(2, i - 1);
      assert Pow(2, i) == 2 * k;
      if x % 2 == 1 {
        if Divides(2 * k, x) {
          var c := DividesWitness(2 * k, x);
          assert x == 2 * (k * c);
          DivModUnique(x, 2, k * c, 0);
          assert false;
        }
      } else {
        var y := x / 2;
        assert x == 2 * y;
        DoubleDivides(k, y);
        V2Divides(y, i - 1);
      }
    }
  }

  // ---------------------------------------------------------------------
  // Integer square root

  lemma SquareMono(a: nat, b: nat)
    requires a < b
    ensures a * a < b * b
  {
    assert b * b - a * a == (b - a) * (b + a);
    assert (b - a) * (b + a) > 0;
  }

  /** Doubling the root of `x / 4` brackets the root of `x` within one. */
  lemma ISqrtDouble(x: nat, a: nat)
    requires a * a <= x / 4 < (a + 1) * (a + 1)
    ensures (2 * a) * (2 * a) <= x < (2 * a + 2) * (2 * a + 2)
  {
    var y := x / 4;
    assert x == 4 * y + x % 4;
    assert (2 * a) * (2 * a) == 4 * (a * a);
    assert (2 * a + 2) * (2 * a + 2) == 4 * ((a + 1) * (a + 1));
    assert y + 1 <= (a + 1) * (a + 1);
  }

  /** The integer square root: the largest `r` with `r * r <= x`. */
  function ISqrt(x: nat): (r: nat)
    ensures r * r <= x < (r + 1) * (r + 1)
    decreases x
  {
    if x < 4 then
      if x == 0 then 0 else 1
    else
      var h := 2 * ISqrt(x / 4);
      ISqrtDouble(x, ISqrt(x / 4));
      if (h + 1) * (h + 1) <= x then h + 1 else h
  }

  /** A perfect square has its own root as integer square root. */
  lemma ISqrtExact(x: nat, t: nat)
    requires t * t == x
    ensures ISqrt(x) == t
  {
    var r := ISqrt(x);
    if r < t {
      SquareMono(r + 1, t + 1);
      if r + 1 < t { SquareMono(r + 1, t); }
      assert false;
    } else if r > t {
      SquareMono(t, r);
      assert false;
    }
  }

  // ---------------------------------------------------------------------
  // Products of sequences

  /** The product of the entries of `s`, with 1 for the empty sequence. */
  function Product(s: seq<int>): (p: int) {
    if |s| == 0 then 1 else s[0] * Product(s[1..])
  }

  lemma {:induction false} ProductAppend(a: seq<int>, b: seq<int>)
    ensures Product(a + b) == Product(a) * Product(b)
    decreases |a|
  {
    if |a| == 0 {
      assert a + b == b;
    } else {
      assert (a + b)[1..] == a[1..] + b;
      ProductAppend(a[1..], b);
      assert Product(a + b) == a[0] * (Product(a[1..]) * Product(b));
    }
  }

  lemma {:induction false} MemberDividesProduct(s: seq<int>, j: int)
    requires 0 <= j < |s|
    ensures Divides(s[j], Product(s))
    decreases |s|
  {
    if j == 0 {
      DividesIntro(s[0], Product(s), Product(s[1..]));
    } else {
      MemberDividesProduct(s[1..], j - 1);
      DividesMul(s[j], Product(s[1..]), s[0]);
      assert Product(s[1..]) * s[0] == Product(s);
    }
  }

  lemma {:induction false} ProductOfPrimesPositive(s: seq<int>)
    requires forall j :: 0 <= j < |s| ==> IsPrime(s[j])
    ensures Product(s) > 0
    decreases |s|
  {
    if |s| > 0 {
      ProductOfPrimesPositive(s[1..]);
    }
  }

  /** The primes dividing a product of primes are exactly its factors. */
  lemma {:induction false} PrimeDivisorsOfProduct(s: seq<int>, r: int)
    requires forall j :: 0 <= j < |s| ==> IsPrime(s[j])
    requires IsPrime(r)
    ensures Divides(r, Product(s)) <==> r in s
    decreases |s|
  {
    if r in s {
      var j :| 0 <= j < |s| && s[j] == r;
      MemberDividesProduct(s, j);
    }
    if Divides(r, Product(s)) {
      if |s| == 0 {
        DividesBound(r, 1);
      } else {
        ProductOfPrimesPositive(s[1..]);
        EuclidPrime(r, s[0], Product(s[1..]));
        if Divides(r, s[0]) {
          PrimeDividesPrime(r, s[0]);
        } else {
          PrimeDivisorsOfProduct(s[1..], r);
        }
      }
    }
  }
}

=== FILE: two_prime.dfy ===
/** Recovery of the two prime factors of `n` from its totient `phi`
    (`factorize` in factorization/known_phi.py).

    With `n == p * q` and `phi == (p - 1) * (q - 1)` the sum `s = n + 1 - phi`
    equals `p + q`, so `p` and `q` are the roots of `x^2 - s*x + n`. The source
    asks Sage for the integer roots of that polynomial; here they are computed
    from the discriminant `s^2 - 4n` and its integer square root. */
module TwoPrime {
  import opened NumberTheory

  /** `x` is a root of the monic quadratic `x^2 - s*x + n`. */
  predicate IsRoot(x: int, s: int, n: int) {
    x * x - s * x + n == 0
  }

  /** The outcome of `factorize`: a pair, `None`, or the ZeroDivisionError
      that `n % 0` raises when 0 is the first root tried. */
  datatype Recovery = Found(p: int, q: int) | NotFound | ZeroDivision

  /** Completing the square: `x` is a root exactly when `(2x - s)^2` is the
      discriminant. */
  lemma RootSquare(x: int, s: int, n: int)
    ensures IsRoot(x, s, n) <==> (2 * x - s) * (2 * x - s) == s * s - 4 * n
  {
    assert (2 * x - s) * (2 * x - s) == 4 * (x * x - s * x) + s * s;
  }

  /** The integer roots are `(s - t) / 2` and `(s + t) / 2`, where `t` is the
      square root of the discriminant, when that discriminant is a perfect
      square. */
  lemma RootFromDiscriminant(x: int, s: int, n: int)
    requires IsRoot(x, s, n)
    ensures s * s - 4 * n >= 0
    ensures ISqrt(s * s - 4 * n) * ISqrt(s * s - 4 * n) == s * s - 4 * n
    ensures 2 * x == s - ISqrt(s * s - 4 * n) || 2 * x == s + ISqrt(s * s - 4 * n)
  {
    RootSquare(x, s, n);
    var e := 2 * x - s;
    assert Abs(e) * Abs(e) == e * e;
    ISqrtExact(s * s - 4 * n, Abs(e));
  }

  lemma SquareFromHalf(x: int, s: int, n: int, t: int)
    requires t * t == s * s - 4 * n
    requires 2 * x == s - t || 2 * x == s + t
    ensures IsRoot(x, s, n)
  {
    var e := 2 * x - s;
    if e == -t {
      assert e * e == t * t by { assert e * e == (-t) * (-t); }
    }
    RootSquare(x, s, n);
  }

  /** The discriminant decides the roots: none when it is negative, not a
      perfect square, or of the wrong parity against `s`; otherwise exactly
      the two halves `(s - t) / 2` and `(s + t) / 2`. */
  lemma {:induction false} DiscriminantCases(s: int, n: int, d: int, t: int)
    requires d == s * s - 4 * n
    requires d >= 0 ==> t == ISqrt(d)
    ensures d < 0 || t * t != d || (s + t) % 2 != 0 ==> forall x :: !IsRoot(x, s, n)
    ensures d >= 0 ==> forall x :: IsRoot(x, s, n) <==> t * t == d && (2 * x == s - t || 2 * x == s + t)
  {
    forall x
      ensures IsRoot(x, s, n) ==> d >= 0 && t * t == d && (2 * x == s - t || 2 * x == s + t)
    {
      if IsRoot(x, s, n) {
        RootFromDiscriminant(x, s, n);
      }
    }
    if d >= 0 {
      forall x | t * t == d && (2 * x == s - t || 2 * x == s + t)
        ensures IsRoot(x, s, n)
      {
        SquareFromHalf(x, s, n, t);
      }
    }
  }

  /** The integer roots of `x^2 - s*x + n`, each once, in increasing order:
      the role Sage's `f.roots()` plays at known_phi.py:17-19. */
  function IntegerRoots(s: int, n: int): (roots: seq<int>)
    ensures forall x :: x in roots <==> IsRoot(x, s, n)
    ensures forall i, j :: 0 <= i < j < |roots| ==> roots[i] < roots[j]
  {
    var d := s * s - 4 * n;
    var t := if d < 0 then 0 else ISqrt(d);
    DiscriminantCases(s, n, d, t);
    if d < 0 || t * t != d || (s + t) % 2 != 0 then []
    else if t == 0 then [s / 2]
    else [(s - t) / 2, (s + t) / 2]
  }

  /** The loop at known_phi.py:19-22: the first root `r` with `n % r == 0`
      gives `(r, n // r)`; a zero root raises before anything is returned. */
  function FirstDividing(n: int, roots: seq<int>): (r: Recovery)
    ensures r.Found? ==> r.p in roots && r.p != 0 && Divides(r.p, n) && r.p * r.q == n
    ensures r.ZeroDivision? ==> 0 in roots
    ensures r.Found? ==>
      (exists k :: 0 <= k < |roots| && roots[k] == r.p &&
         (forall j :: 0 <= j < k ==> roots[j] != 0 && !Divides(roots[j], n)))
    ensures r.ZeroDivision? ==>
      (exists k :: 0 <= k < |roots| && roots[k] == 0 &&
         (forall j :: 0 <= j < k ==> !Divides(roots[j], n)))
    ensures r.NotFound? ==> forall x :: x in roots ==> x != 0 && !Divides(x, n)
  {
    if |roots| == 0 then NotFound
    else if roots[0] == 0 then ZeroDivision
    else if n % roots[0] == 0 then
      assert n == roots[0] * (n / roots[0]) + n % roots[0];
      Found(roots[0], n / roots[0])
    else
      assert roots == [roots[0]] + roots[1..];
      var r := FirstDividing(n, roots[1..]);
      FirstAfterHead(n, roots, r);
      r
  }

  /** A root that does not divide `n` does not move the first dividing root
      or the first zero root: only their index grows by one. */
  lemma FirstAfterHead(n: int, roots: seq<int>, r: Recovery)
    requires |roots| > 0 && roots[0] != 0 && !Divides(roots[0], n)
    requires r.Found? ==>
      (exists k :: 0 <= k < |roots[1..]| && roots[1..][k] == r.p &&
         (forall j :: 0 <= j < k ==> roots[1..][j] != 0 && !Divides(roots[1..][j], n)))
    requires r.ZeroDivision? ==>
      (exists k :: 0 <= k < |roots[1..]| && roots[1..][k] == 0 &&
         (forall j :: 0 <= j < k ==> !Divides(roots[1..][j], n)))
    ensures r.Found? ==>
      (exists k :: 0 <= k < |roots| && roots[k] == r.p &&
         (forall j :: 0 <= j < k ==> roots[j] != 0 && !Divides(roots[j], n)))
    ensures r.ZeroDivision? ==>
      (exists k :: 0 <= k < |roots| && roots[k] == 0 &&
         (forall j :: 0 <= j < k ==> !Divides(roots[j], n)))
  {
  }


  /** `factorize(n, phi)`. Any pair it returns multiplies to `n`, and its
      members minus one multiply to `phi`: the pair is a factorization
      consistent with the totient that was supplied. */
  function Factorize(n: int, phi: int): (r: Recovery)
    ensures r.Found? ==> r.p != 0 && Divides(r.p, n) && r.p * r.q == n
    ensures r.Found? ==> phi == (r.p - 1) * (r.q - 1)
  {
    var r := FirstDividing(n, IntegerRoots(n + 1 - phi, n));
    if r.Found? then
      FoundPairMatchesTotient(n, phi, r.p, r.q);
      r
    else r
  }

  /** A nonzero root `p` with cofactor `q` accounts for the totient: `q` is
      the other root, so `p + q == n + 1 - phi`. */
  lemma FoundPairMatchesTotient(n: int, phi: int, p: int, q: int)
    requires IsRoot(p, n + 1 - phi, n) && p != 0 && p * q == n
    ensures phi == (p - 1) * (q - 1)
  {
    var s := n + 1 - phi;
    RootCofactor(p, s, n);
    DividesIntro(p, n, q);
    assert q == s - p;
    assert (p - 1) * (q - 1) == p * q - p - q + 1;
  }

  /** A root `r` of `x^2 - s*x + n` satisfies `r * (s - r) == n`, so a
      nonzero root always divides `n` and its cofactor is the other root. */
  lemma RootCofactor(r: int, s: int, n: int)
    requires IsRoot(r, s, n)
    ensures r * (s - r) == n
    ensures IsRoot(s - r, s, n)
    ensures r != 0 ==> Divides(r, n) && n / r == s - r
  {
    assert r * (s - r) == s * r - r * r;
    assert (s - r) * (s - r) - s * (s - r) == r * r - s * r;
    DividesIntro(r, n, s - r);
  }

  /** When the first root is nonzero it divides `n`, so the loop never moves
      past it. */
  lemma FactorizeTakesFirstRoot(n: int, phi: int)
    ensures var roots := IntegerRoots(n + 1 - phi, n);
      Factorize(n, phi) ==
        if |roots| == 0 then NotFound
        else if roots[0] == 0 then ZeroDivision
        else Found(roots[0], n + 1 - phi - roots[0])
  {
    var s := n + 1 - phi;
    var roots := IntegerRoots(s, n);
    if |roots| > 0 && roots[0] != 0 {
      assert roots[0] in roots;
      RootCofactor(roots[0], s, n);
    }
  }

  /** A monic quadratic with roots `a` and `b` has no other root. */
  lemma RootsOfProduct(x: int, a: int, b: int)
    ensures IsRoot(x, a + b, a * b) <==> (x == a || x == b)
  {
    assert x * x - (a + b) * x + a * b == (x - a) * (x - b);
    if x != a && x != b {
      MulAtLeast(x - a, x - b);
    }
  }

  /** `factorize` returns the pair `(a, b)` exactly when `a` is nonzero,
      `a <= b`, `n == a * b` and `phi == (a - 1) * (b - 1)`. */
  lemma FactorizeFound(n: int, phi: int, a: int, b: int)
    ensures Factorize(n, phi) == Found(a, b) <==>
      a != 0 && a <= b && n == a * b && phi == (a - 1) * (b - 1)
  {
    var s := n + 1 - phi;
    var roots := IntegerRoots(s, n);
    FactorizeTakesFirstRoot(n, phi);
    if Factorize(n, phi) == Found(a, b) {
      assert a == roots[0] && b == s - a;
      RootCofactor(a, s, n);
      assert b in roots;
      var k :| 0 <= k < |roots| && roots[k] == b;
      assert a <= b;
    }
    if a != 0 && a <= b && n == a * b && phi == (a - 1) * (b - 1) {
      assert s == a + b;
      RootsOfProduct(a, a, b);
      assert a in roots;
      var k :| 0 <= k < |roots| && roots[k] == a;
      assert roots[0] in roots;
      RootsOfProduct(roots[0], a, b);
      assert roots[0] == a;
    }
  }

  /** Some integer is a root of `x^2 - s*x + n`. */
  ghost predicate HasIntegerRoot(s: int, n: int) {
    exists x :: IsRoot(x, s, n)
  }

  /** `factorize` finds nothing exactly when the quadratic has no integer
      root. */
  lemma FactorizeNotFound(n: int, phi: int)
    ensures Factorize(n, phi) == NotFound <==> !HasIntegerRoot(n + 1 - phi, n)
  {
    var s := n + 1 - phi;
    var roots := IntegerRoots(s, n);
    FactorizeTakesFirstRoot(n, phi);
    if |roots| > 0 {
      assert IsRoot(roots[0], s, n) by { assert roots[0] in roots; }
    }
  }

  /** Whatever order the roots are listed in, a nonzero modulus makes the
      first root listed the answer: every root divides `n`. */
  lemma FirstDividingAnyOrder(n: int, s: int, roots: seq<int>)
    requires n != 0 && |roots| > 0
    requires forall x :: x in roots <==> IsRoot(x, s, n)
    ensures FirstDividing(n, roots) == Found(roots[0], s - roots[0])
  {
    assert roots[0] in roots;
    RootCofactor(roots[0], s, n);
  }

  /** Whatever order the roots are listed in, a zero modulus raises exactly
      when the first root listed is 0; otherwise that root is returned with
      cofactor 0. */
  lemma FirstDividingZeroModulus(s: int, roots: seq<int>)
    requires |roots| > 0
    requires forall x :: x in roots <==> IsRoot(x, s, 0)
    ensures FirstDividing(0, roots) == ZeroDivision <==> roots[0] == 0
    ensures roots[0] != 0 ==> FirstDividing(0, roots) == Found(roots[0], s - roots[0])
  {
    assert roots[0] in roots;
    RootCofactor(roots[0], s, 0);
  }

  /** The division by zero happens exactly when `n == 0` and `phi <= 1`: then
      the roots are 0 and `1 - phi`, and 0 is the smaller. */
  lemma FactorizeZeroDivision(n: int, phi: int)
    ensures Factorize(n, phi) == ZeroDivision <==> n == 0 && phi <= 1
  {
    var s := n + 1 - phi;
    var roots := IntegerRoots(s, n);
    FactorizeTakesFirstRoot(n, phi);
    if Factorize(n, phi) == ZeroDivision {
      assert roots[0] in roots;
      assert n == 0;
      RootsOfProduct(s, 0, s);
      var k :| 0 <= k < |roots| && roots[k] == s;
    }
    if n == 0 && phi <= 1 {
      RootsOfProduct(0, 0, s);
      var k :| 0 <= k < |roots| && roots[k] == 0;
      assert roots[0] in roots;
      RootsOfProduct(roots[0], 0, s);
    }
  }

  /** For a modulus `p * q` and its totient `(p - 1) * (q - 1)`, `factorize`
      returns the two factors; with the ascending order of `IntegerRoots`,
      the smaller comes first. */
  lemma TwoPrimeRecovery(p: int, q: int)
    requires p != 0 && q != 0
    ensures Factorize(p * q, (p - 1) * (q - 1)) ==
      if p <= q then Found(p, q) else Found(q, p)
  {
    if p <= q {
      FactorizeFound(p * q, (p - 1) * (q - 1), p, q);
    } else {
      FactorizeFound(p * q, (p - 1) * (q - 1), q, p);
    }
  }

  /** Worked example: `n = 61 * 53 = 3233` with `phi = 60 * 52 = 3120`. */
  lemma Recover3233()
    ensures Factorize(3233, 3120) == Found(53, 61)
  {
    TwoPrimeRecovery(61, 53);
  }

  // ---------------------------------------------------------------------
  // Wrong totients

  /** The positive factor pairs of a product of two primes `p <= q` are
      `(1, pq)`, `(p, q)`, `(q, p)` and `(pq, 1)`. */
  lemma PositiveFactorPairs(p: int, q: int, a: nat, b: nat)
    requires IsPrime(p) && IsPrime(q) && a * b == p * q
    ensures (a == 1 && b == p * q) || (a == p && b == q) || (a == q && b == p) || (a == p * q && b == 1)
  {
    var n := p * q;
    DividesIntro(p, n, q);
    EuclidPrime(p, a, b);
    if Divides(p, a) {
      var k := DividesWitness(p, a);
      PrimeTimesCofactor(p, q, k, b);
    } else {
      var k := DividesWitness(p, b);
      assert b * a == n;
      PrimeTimesCofactor(p, q, k, a);
    }
  }

  /** If `(p k) c == p q` with `c` non-negative, then `(k, c)` is `(1, q)` or
      `(q, 1)`. */
  lemma PrimeTimesCofactor(p: int, q: int, k: int, c: nat)
    requires IsPrime(p) && IsPrime(q) && (p * k) * c == p * q
    ensures (k == 1 && c == q) || (k == q && c == 1)
  {
    assert p * (k * c) == p * q;
    CancelLeft(p, k * c, q);
    assert c > 0;
    assert k > 0 by {
      MulSign(c, k);
    }
    FactorOfPrime(q, c, k);
    if c == 1 {
      assert k == q;
    } else {
      assert k * q == 1 * q;
      CancelRight(k, 1, q);
    }
  }

  /** The totients `factorize` accepts for a product of two primes `p <= q`:
      the true one and three wrong ones. */
  predicate AcceptedTotient(p: int, q: int, phi: int) {
    phi == (p - 1) * (q - 1) || phi == 0 ||
    phi == (p + 1) * (q + 1) || phi == 2 * p * q + 2
  }

  /** For a product of two primes `p <= q`, `factorize` finds a pair for
      exactly four totients: the true `(p-1)(q-1)`, and three wrong ones that
      give the trivial pair `(1, pq)` or a pair of negative numbers. */
  lemma SemiprimeTotients(p: int, q: int, phi: int)
    requires IsPrime(p) && IsPrime(q) && p <= q
    ensures Factorize(p * q, phi).Found? <==> AcceptedTotient(p, q, phi)
  {
    var n := p * q;
    var r := Factorize(n, phi);
    if r.Found? {
      FactorizeFound(n, phi, r.p, r.q);
      PairTotient(p, q, r.p, r.q, phi);
    }
    if AcceptedTotient(p, q, phi) {
      var a, b := AcceptedPair(p, q, phi);
      FactorizeFound(n, phi, a, b);
    }
  }

  /** The pair `factorize` returns for an accepted totient. */
  lemma AcceptedPair(p: int, q: int, phi: int) returns (a: int, b: int)
    requires IsPrime(p) && IsPrime(q) && p <= q && AcceptedTotient(p, q, phi)
    ensures a != 0 && a <= b && p * q == a * b && phi == (a - 1) * (b - 1)
  {
    var n := p * q;
    assert n >= p by {
      MulNatAtLeast(p, q);
    }
    if phi == (p - 1) * (q - 1) {
      a, b := p, q;
    } else if phi == 0 {
      a, b := 1, n;
    } else if phi == (p + 1) * (q + 1) {
      a, b := -q, -p;
      assert (a - 1) * (b - 1) == (q + 1) * (p + 1);
    } else {
      a, b := -n, -1;
    }
  }

  /** Every factor pair of `pq` whose totient matches is accepted. */
  lemma PairTotient(p: int, q: int, a: int, b: int, phi: int)
    requires IsPrime(p) && IsPrime(q) && p <= q
    requires a != 0 && a <= b && a * b == p * q && phi == (a - 1) * (b - 1)
    ensures AcceptedTotient(p, q, phi)
  {
    var n := p * q;
    assert n >= 4 by {
      MulNatAtLeast(p, q);
    }
    if a > 0 {
      MulSign(a, b);
      PositiveFactorPairs(p, q, a, b);
      if a == q && b == p {
        assert phi == (q - 1) * (p - 1);
      }
    } else {
      assert (-a) * (-b) == n;
      MulSign(-a, -b);
      PositiveFactorPairs(p, q, -a, -b);
      if a == -q && b == -p {
        assert phi == (q + 1) * (p + 1);
      }
    }
  }

  /** A totient off by one for two distinct primes finds nothing. */
  lemma OffByOneTotientRejected(p: int, q: int)
    requires IsPrime(p) && IsPrime(q) && p < q
    ensures Factorize(p * q, (p - 1) * (q - 1) + 1) == NotFound
    ensures Factorize(p * q, (p - 1) * (q - 1) - 1) == NotFound
  {
    var n, t := p * q, (p - 1) * (q - 1);
    OffByOneNotAccepted(p, q);
    assert n > 0 by {
      MulNatAtLeast(p, q);
    }
    SemiprimeTotients(p, q, t + 1);
    SemiprimeTotients(p, q, t - 1);
    FactorizeZeroDivision(n, t + 1);
    FactorizeZeroDivision(n, t - 1);
  }

  lemma OffByOneNotAccepted(p: int, q: int)
    requires IsPrime(p) && IsPrime(q) && p < q
    ensures !AcceptedTotient(p, q, (p - 1) * (q - 1) + 1)
    ensures !AcceptedTotient(p, q, (p - 1) * (q - 1) - 1)
  {
    var t := (p - 1) * (q - 1);
    assert t >= 2 by {
      MulNatAtLeast(q - 1, p - 1);
      assert (q - 1) * (p - 1) == t;
    }
    assert (p + 1) * (q + 1) == t + 2 * (p + q);
    assert 2 * p * q + 2 == t + p * q + p + q + 1;
    assert p * q > 0 by {
      MulNatAtLeast(p, q);
    }
  }

  /** A zero totient makes the quadratic `(x - 1)(x - n)`, and `factorize`
      returns the trivial pair `(1, n)` rather than `None`. */
  lemma ZeroTotientGivesTrivialPair(n: int)
    requires n >= 1
    ensures Factorize(n, 0) == Found(1, n)
  {
    FactorizeFound(n, 0, 1, n);
  }
}
